=== FILE: README.md ===
# Lab-economy ledger: orders, experiment bookings, initial state

This project is a Dafny model of the resource-accounting core of the ZOOL412
Autostations lab economy. One inventory record holds:

- credits;
- four TA (technical assistant) shift counters, in the fixed order saltos, nitro, helene, carnival;
- juice boosters;
- a maximum and an available count for each of four animal species;
- eight cartridge counters.

Three parts of the engine act on that record:

- **Ordering** (`UserActions`, `orders.dfy`). A three-tier acquisition table
  maps urgency to a lead time and a price factor. `PlaceOrder` checks, in this
  order, that the user exists, that the article is in the catalog, that the
  inventory exists and that it holds enough credits. Only then does it pay the
  order up front and queue one delivery order.
- **Experiment booking** (`UserExperiments`, `experiments.dfy`). Three bookings
  are modelled: GeneWeaver DGE analysis, GeneWeaver viral vector modification
  and Intraspectra visual acquisition. Each one:
  - computes a shift requirement: the ceiling of samples over 5 for DGE, the
    plain subject total for viral modification, and the ceiling of subjects
    over the capture type's rate for visual acquisition;
  - checks an XATTY cartridge (both GeneWeaver bookings) and TA shifts (all
    three); visual acquisition also checks credits at this point;
  - passes a confirmation gate;
  - takes the cartridge and then shifts greedily from the four TA counters;
    DGE checks its credits only here, after the gate and these in-memory
    deductions, and still before the commit, so a credit failure commits
    nothing; viral modification costs no credits;
  - logs the experiment.
- **Initial ledger** (`AdminActions`, `admin.dfy`). This is the starting
  inventory row.

Other modules:

- `ShiftDeduction` (`greedy.dfy`) holds the greedy loop and its proofs. It
  proves that the greedy result is the only outcome that lowers the total by
  exactly the requirement, never raises or negates a counter, and drains
  earlier counters first.
- `Ledger` (`inventory.dfy`) holds the inventory and the articles.
- `Tables` (`tables.dfy`) holds the persisted state: user ids, catalog,
  inventory rows, orders and experiments.
- `Common` (`common.dfy`) holds `Option`, `Sum` and `CeilDiv`.
- `Scenarios` (`scenarios.dfy`) states what the model gives for the driver
  script's calls on a fresh ledger. For the two bookings this is the intended
  behaviour described under "Left out" (`subject_species`): as written, their
  first flush fails and they commit nothing.

How the model represents the source:

- Every action is a pure function returning `Success(newState, record)` or
  `Failure(reason)`. A failure commits nothing: `Commit` keeps the old state.
- The inventory table is a sequence of rows. Every action reads and writes
  row 0, as `query(Inventory).first()` does. If the table is empty, the
  action fails with `InventoryNotInitialized`.
- Credits are exact `real`s. Shift, cartridge and cost arithmetic is on
  unbounded `int`s.
- The confirmation prompt is an input parameter: the raw reply. It is
  stripped of surrounding whitespace and lower-cased, then `""` and `"y"`
  accept, so exactly the stripped replies "", "y" and "Y" book.

Behaviour of the code worth knowing:

- DGE checks credits after the in-memory cartridge and shift deductions
  (db/user_experiments.py:77-95). It still checks them before the commit, so a
  credit failure commits nothing.
- The three bookings touch no animal counts and use fixed cost formulas, not
  catalog prices.
- `initialize_inventory` sets 120 shifts for each TA.
- `place_order` rejects an unknown user id before any other check.
- Subject counts are not validated anywhere, and a negative count is booked.
  What it does depends on the booking:
  - A DGE booking whose subjects total -5 or less needs a negative number of
    shifts and has a negative compute cost. It then raises credits and gives
    the first TA extra shifts
    (`UserExperiments.NegativeSubjectsAddResources`). A total between -4 and
    -1 needs 0 shifts, so it raises credits only.
  - A viral booking never touches credits. A negative total gives the first
    TA extra shifts (`UserExperiments.NegativeViralAddsShifts`).
  - A visual booking with a negative count never takes shifts or credits. A
    single-frame count from -9 to -1 rounds to 0 shifts and a cost of 0, so it
    leaves the ledger row as it was
    (`UserExperiments.NegativeVisualNeverCharges`).

## Model

| member | source | states |
|---|---|---|
| Common.CeilDiv | db/user_experiments.py:32 | the result r is the least integer with a <= r*b: (r-1)*b < a <= r*b for every integer a, which is Python's `math.ceil(a / b)` |
| Common.CeilDivUnique | db/user_experiments.py:265 | no other integer meets that bracketing, so the ceiling is determined by it |
| ShiftDeduction.Deduct | db/user_experiments.py:80-92 | one counter per field, visited saltos, nitro, helene, carnival; each gives up min(counter, remaining) and the pass stops once nothing remains (the same loop recurs at lines 189-201 and 310-322). Its own contract gives only the length; what the result means is stated by DeductSpec and DeductUnique |
| ShiftDeduction.DeductSpec | db/user_experiments.py:80-92 | with non-negative counters and 0 <= required <= their total: the total drops by exactly `required`, no counter goes negative or rises, a counter is lowered only if every earlier one ends at 0, and `required = 0` changes nothing |
| ShiftDeduction.DeductUnique | db/user_experiments.py:189-201 | any outcome that lowers the total by `required`, keeps counters in [0, before] and drains earlier counters first IS the greedy result |
| ShiftDeduction.NegativeRequirementAddsShifts | db/user_experiments.py:310-322 | a negative requirement is not rejected: the first counter grows by its magnitude and the loop stops |
| Ledger.ArticleValueInjective | db/models/order.py:10-19 | two articles have the same value exactly when they are the same article, so the catalog lookup by value tells them apart |
| Ledger.WithTaShifts | db/user_experiments.py:87-89 | writing the TA counters sets exactly those four fields; credits, juice, every article counter and every species stock are kept |
| Tables.FindItem | db/user_actions.py:59-63 | the catalog lookup yields the FIRST entry whose key matches, and fails exactly when no entry matches |
| Tables.CatalogPrice | db/user_actions.py:59-65 | an article has a price exactly when some catalog entry is keyed by its value, and the price is that of the first such entry |
| AdminActions.InitialInventory | db/admin_actions.py:35-58 | the starting ledger satisfies the bounds every action keeps (no negative credits, shifts or counters; kept by `PlaceOrderPreservesValid`, `DgeKeepsValid`, `ViralKeepsValid` and `VisualKeepsValid`) |
| AdminActions.InitializeInventory | db/admin_actions.py:35-60 | initialisation adds exactly one row; the row every action reads becomes the starting ledger when the table was empty and stays the old first row otherwise, so re-initialising never resets the ledger; no other table changes |
| AdminActions.InitialValues | db/admin_actions.py:36-57 | 2,000,000 credits, 120 shifts for each TA, 3 juice, 51u6 at max = available = 40, the other three species at the -1 sentinel, one of each cartridge |
| AdminActions.InitializeCreatesSingleRow | db/admin_actions.py:59-60 | on an empty table exactly one row is created, and it is the row every action reads |
| UserActions.AcquisitionRule | db/user_actions.py:12-16 | every tier waits 1 to 3 weeks at a positive price factor, and the standard tier alone charges the catalog price unchanged |
| UserActions.TierTradeOff | db/user_actions.py:12-16 | the three tiers have pairwise distinct rules, and a longer lead time means a strictly lower price factor and vice versa |
| UserActions.OrderCost | db/user_actions.py:59-69 | an order has a cost exactly when its article has a catalog price; the standard tier pays that price, and a non-negative price never gives a negative cost |
| UserActions.PlaceOrder | db/user_actions.py:53-95 | unknown user, then missing article, then missing inventory, then too few credits are rejected in that order and report available vs. needed; success iff all four checks pass; on success credits drop by exactly catalog price x tier factor, no other inventory field or row changes, and exactly one order is appended with that value, the article, the tier's lead time and is_effect false |
| UserActions.ExactCreditsSucceed | db/user_actions.py:77-82 | credits exactly equal to the cost succeed and leave 0 |
| UserActions.PlaceOrderPreservesValid | db/user_actions.py:77-82 | a committed order keeps every ledger bound and leaves the ordered article's own counter untouched (delivery is deferred) |
| UserActions.QuickerCostsMore | db/user_actions.py:68-69 | for a non-negative base price, quick costs at least standard, which costs at least smart |
| UserExperiments.Strip | db/user_experiments.py:70 | `strip()` cuts the reply to a slice that neither starts nor ends with whitespace, and everything it cuts away is whitespace (the whitespace below U+0080 as Python counts it, separators U+001C to U+001F included) |
| UserExperiments.ConfirmsExactly | db/user_experiments.py:70-72 | the reply, after `strip().lower()`, books exactly when the stripped reply is "", "y" or "Y"; the same gate recurs at lines 180-182 and 303-305 |
| UserExperiments.SubjectTotalBounds | db/user_experiments.py:31 | the subject total (the same sum recurs at line 150) is the sum of the group counts; with no negative group it is non-negative and covers each group |
| UserExperiments.DgeShiftsRequired | db/user_experiments.py:31-32 | the DGE requirement r is the least shift count with 5*r >= samples |
| UserExperiments.DgeComputeCost | db/user_experiments.py:54-58 | each sample costs at least one credit: a non-negative sample count is covered by the cost, and a negative one gives a cost at or below it (so the "cost" is a refund) |
| UserExperiments.DgeComputeCostMonotone | db/user_experiments.py:54-58 | more samples never cost less, whatever the sequence limit |
| UserExperiments.RunDgeAnalysis | db/user_experiments.py:20-135 | missing inventory, then XATTY < 1, then too few TA shifts, then a declined prompt, then too few credits for the compute cost are refused in that order, each with its reason; success iff inventory exists, XATTY >= 1, shifts cover the requirement, the reply confirms and credits cover the compute cost; success logs one GeneWeaver "DGE Analysis" experiment with wait_weeks 2 and touches no other table or row |
| UserExperiments.DgeSuccessEffects | db/user_experiments.py:76-98 | with a subject total above -5, a committed DGE booking removes exactly one XATTY, exactly the required shifts (drained in TA order, none raised) and exactly the compute cost, changes no other field, and keeps the ledger valid |
| UserExperiments.RunViralModification | db/user_experiments.py:140-238 | refusals in source order (inventory, XATTY, shifts = total subjects, declined prompt); success iff inventory exists, XATTY >= 1, shifts cover the subjects and the reply confirms; logs one "Viral Vector Modification" experiment with wait_weeks 3 |
| UserExperiments.ViralSuccessEffects | db/user_experiments.py:186-201 | with a non-negative subject total, a committed viral booking removes one XATTY and one shift per subject (drained in TA order), leaves credits and every other field unchanged, and keeps the ledger valid |
| UserExperiments.SamplesPerShift | db/user_experiments.py:258-263 | only "Single_Frame" and "Time_Series" are accepted, each with a positive samples-per-shift rate |
| UserExperiments.TotalFrames | db/user_experiments.py:268-271 | the frame count has the sign of the subject count, is zero exactly when there are no subjects, and covers the subjects when there are some |
| UserExperiments.OcsCost | db/user_experiments.py:268-275 | the OCS cost is a multiple of 1000 at least the frame count and less than 1000 above it |
| UserExperiments.OcsCostIsLeast | db/user_experiments.py:274-275 | no smaller multiple of 1000 covers the frames |
| UserExperiments.RunIntraspectraVisual | db/user_experiments.py:242-354 | missing inventory, then an invalid capture type, then too few shifts, then too few credits for the OCS cost, then a declined prompt are refused in that order, so both resource checks precede confirmation; success iff the capture type is valid, shifts cover ceil(subjects / rate), credits cover the OCS cost and the reply confirms; logs one Intraspectra "Visual Acquisition" experiment with wait_weeks 1 |
| UserExperiments.VisualSuccessEffects | db/user_experiments.py:309-325 | a committed visual booking removes exactly the required shifts (drained in TA order) and the OCS cost, changes no cartridge or other field, and keeps the ledger valid |
| UserExperiments.NegativeSubjectsAddResources | db/user_experiments.py:31-58 | a DGE form whose subjects total -5 or less is booked, and the booking RAISES credits and the first TA's shifts |
| UserExperiments.NegativeViralAddsShifts | db/user_experiments.py:150-151 | a viral form whose subjects total below zero is booked without touching credits, and the first TA gains that many shifts |
| UserExperiments.NegativeVisualNeverCharges | db/user_experiments.py:265-293 | a visual booking with a negative subject count never lowers credits or shifts; a single-frame count from -9 to -1 leaves the ledger row unchanged |
| UserExperiments.DeductKeepsNonNeg | db/user_experiments.py:80-92 | for any requirement the four non-negative TA counters cover, negative ones included, the greedy pass leaves every counter non-negative |
| UserExperiments.DgeBookingDeltas | db/user_experiments.py:76-98 | every committed DGE booking on a valid ledger, whatever the subject total, removes exactly one XATTY, changes the shift total by exactly minus the requirement and the credits by exactly minus the compute cost (both rise when they are negative), and changes no other field |
| UserExperiments.DgeKeepsValid | db/user_experiments.py:76-98 | every committed DGE booking on a valid ledger keeps it valid, whatever the subject counts |
| UserExperiments.ViralKeepsValid | db/user_experiments.py:186-201 | every committed viral booking on a valid ledger keeps it valid, whatever the subject counts |
| UserExperiments.VisualKeepsValid | db/user_experiments.py:309-325 | every committed visual booking on a valid ledger keeps it valid, whatever the subject count |
| Scenarios.QuickOrderScenario | main.py:110-118 | with the XATTY cartridge at an assumed catalog price of 70,000 credits (the catalog initialisation is not part of this model), a quick order on a fresh ledger leaves 1,860,000 credits and one order due in 1 week; an unknown user changes nothing |
| Scenarios.DgeScenario | main.py:28-56 | the driver's DGE form (10 samples, 5000 sequences) takes 2 shifts from saltos, 50,000 credits and the only XATTY; repeating it is refused for lack of a cartridge |
| Scenarios.VisualScenario | main.py:149-167 | the driver's time-series form (4 subjects) takes 1 shift and 40,000 credits with wait 1 week; declining the prompt books nothing |

## Left out

- Persistence: SQLAlchemy sessions, flush and commit. A success returns the new state and a failure returns none.
- The experiment row is built without `subject_species`, which db/models/experiment.py:22 declares NOT NULL with no default. As written, the first `session.flush()` of every booking (db/user_experiments.py:111, 214 and 338) therefore fails, and no booking can commit. The source does not show which species each booking should record, so the model does not choose one: it describes the evidently intended behaviour, in which a booking that passes its checks is logged.
- Console output and reading the prompt. The raw reply is a parameter. `Strip` removes the whitespace below U+0080 that Python removes (space, tab, line feed, vertical tab, form feed, carriage return and the separators U+001C to U+001F), and `Lower` maps only A-Z.
- UserExperiments.Strip: keeps the non-ASCII whitespace that Python's `strip()` removes: U+0085, U+00A0, U+1680, U+2000 to U+200A, U+2028, U+2029, U+202F, U+205F and U+3000. A reply such as "y" or "" padded with those characters books in Python but is refused by the model. `Lower` likewise does not lower-case non-ASCII letters; none of them lowers to "y", so only the whitespace gap changes which replies book.
- The catalog contents: `initialize_item_catalog` is not part of this model, so the scenario's XATTY price of 70,000 credits is an assumed value.
- Date and time stamps on orders and experiments.
- Floating point: credits and price factors are exact reals. `math.ceil(a / b)` is exact ceiling division, so float rounding of very large counts is not modelled.
- Missing dictionary keys in form data (Python `KeyError`). The forms are typed records, so every key is present.
- The driver script's other actions have no source here: `administer_juiz`, `advance_one_week`, `collect_animals`, `run_intraspectra_rt`, `run_neurocartographer_trace`, `run_panopticam_monitoring`, `run_polykiln_fabrication`, `create_test_users` and `initialize_item_catalog`. The weekly tick and the queue maturing are therefore not modelled.
- test.py is a standalone trajectory simulator with no link to the ledger.
- ORM detail tables are reduced to one `Detail` value that holds the submitted form.
- ShiftDeduction.DeductSpec: characterised only for non-negative counters and 0 <= required <= total. `Deduct` follows the loop for every other input too. `NegativeRequirementAddsShifts` covers negative requirements. Negative counters are not characterised.
- UserExperiments.DgeSuccessEffects: the drained-in-order and never-raised clauses are stated for a valid ledger and a subject total above -5 (group counts may be negative); for totals of -5 or less the first TA gains shifts, so they do not hold. `DgeBookingDeltas` states the exact cartridge, shift-total and credit changes and the unchanged fields for every total, and `DgeKeepsValid` states validity for every total.
- UserExperiments.ViralSuccessEffects: stated for a valid ledger and a non-negative subject total (group counts may be negative). Negative totals are covered by `NegativeViralAddsShifts`, which states the credit and first-TA effects; `ViralKeepsValid` states validity for every total.
- UserExperiments.VisualSuccessEffects: stated only for a valid ledger and a non-negative subject count. Negative counts are covered by `NegativeVisualNeverCharges`, which states only that shifts and credits do not fall; `VisualKeepsValid` states validity for every count.
- ShiftDeduction.Deduct: its own contract states only that the result has one counter per field. Its meaning is stated by `DeductSpec` and `DeductUnique`.

=== FILE: admin.dfy ===
/**
 * Administrative setup (db/admin_actions.py): the starting inventory row.
 */
module AdminActions {
  import opened Common
  import opened Ledger
  import opened Tables

  /** The starting ledger of a game. */
  function InitialInventory(): (inv: Inventory)
    ensures Valid(inv)
  {
    Inventory(
      credits := 2000000.0,
      taSaltosShifts := 120,
      taNitroShifts := 120,
      taHeleneShifts := 120,
      taCarnivalShifts := 120,
      juice := 3,
      animals51u6 := Stock(max := 40, available := 40),
      animals51u6M := Stock(max := -1, available := -1),
      animalsC248S := Stock(max := -1, available := -1),
      animalsC248L := Stock(max := -1, available := -1),
      xattyCartridge := 1,
      zeropointCartridge := 1,
      ncPk1Cartridge := 1,
      smartFilamentSCartridge := 1,
      smartFilamentMCartridge := 1,
      smartFilamentLCartridge := 1,
      mamrReelCartridge := 1,
      dupontCartridge := 1)
  }

  /**
   * Adds the starting inventory row. On an empty table that row becomes the
   * ledger every action reads; on a table that already has a row, the new
   * row is never read, so re-initialising does not reset the ledger.
   */
  function InitializeInventory(db: Db): (r: Db)
    ensures |r.inventories| == |db.inventories| + 1
    ensures FirstInventory(r) == if |db.inventories| == 0 then Some(InitialInventory()) else FirstInventory(db)
    ensures r.users == db.users && r.catalog == db.catalog
    ensures r.orders == db.orders && r.experiments == db.experiments
  {
    db.(inventories := db.inventories + [InitialInventory()])
  }

  /** The starting values of every inventory field. */
  lemma InitialValues()
    ensures InitialInventory().credits == 2000000.0
    ensures forall i :: 0 <= i < 4 ==> TaShifts(InitialInventory())[i] == 120
    ensures TotalShifts(InitialInventory()) == 480
    ensures InitialInventory().juice == 3
    ensures SpeciesStock(InitialInventory(), U51) == Stock(40, 40)
    ensures forall sp: Species :: sp != U51 ==> Unavailable(SpeciesStock(InitialInventory(), sp))
    ensures forall a: Article :: a != Juice ==> ArticleCount(InitialInventory(), a) == 1
  {
    var s := TaShifts(InitialInventory());
    assert s[1..][1..][1..][1..] == [];
  }

  /**
   * Initialising an empty table creates exactly one row, and that row is the
   * one every action reads.
   */
  lemma InitializeCreatesSingleRow(db: Db)
    requires db.inventories == []
    ensures |InitializeInventory(db).inventories| == 1
    ensures FirstInventory(InitializeInventory(db)) == Some(InitialInventory())
  {
  }
}

=== FILE: common.dfy ===
/**
 * Small shared vocabulary: an optional value, the sum of a sequence of
 * integers, and the integer ceiling of a quotient (what Python's
 * `math.ceil(a / b)` computes for a positive divisor).
 */
module Common {

  datatype Option<+T> = None | Some(value: T)

  /** Sum of a sequence of integers, first element first. */
  function Sum(s: seq<int>): int
  {
    if |s| == 0 then 0 else s[0] + Sum(s[1..])
  }

  /** Every element is at least zero. */
  predicate AllNonNeg(s: seq<int>)
  {
    forall i :: 0 <= i < |s| ==> s[i] >= 0
  }

  /** Splitting off the head of a sequence splits off its contribution to the sum. */
  lemma SumCons(x: int, s: seq<int>)
    ensures Sum([x] + s) == x + Sum(s)
  {
    assert ([x] + s)[1..] == s;
  }

  lemma {:induction false} SumNonNeg(s: seq<int>)
    requires AllNonNeg(s)
    ensures Sum(s) >= 0
  {
    if |s| > 0 {
      SumNonNeg(s[1..]);
    }
  }

  /** With no negative element, the sum covers every element. */
  lemma {:induction false} SumCoversElement(s: seq<int>)
    requires AllNonNeg(s)
    ensures forall i :: 0 <= i < |s| ==> s[i] <= Sum(s)
  {
    if |s| > 0 {
      SumCoversElement(s[1..]);
      SumNonNeg(s[1..]);
      forall i | 1 <= i < |s|
        ensures s[i] <= Sum(s)
      {
        assert s[i] == s[1..][i - 1];
      }
    }
  }

  /**
   * Pointwise domination: if `t` is nowhere above `f`, its sum is no larger,
   * and equal sums force equal sequences.
   */
  lemma {:induction false} SumDominated(t: seq<int>, f: seq<int>)
    requires |t| == |f|
    requires forall i :: 0 <= i < |t| ==> t[i] <= f[i]
    ensures Sum(t) <= Sum(f)
    ensures Sum(t) == Sum(f) ==> t == f
  {
    if |t| > 0 {
      SumDominated(t[1..], f[1..]);
      if Sum(t) == Sum(f) {
        assert t[0] == f[0];
        assert t == [t[0]] + t[1..];
        assert f == [f[0]] + f[1..];
      }
    }
  }

  /**
   * Ceiling of `a / b` for a positive divisor, for every integer `a`
   * (negative ones included): the least multiple count that covers `a`.
   */
  function CeilDiv(a: int, b: int): (r: int)
    requires b > 0
    ensures (r - 1) * b < a <= r * b
  {
    var q := (-a) / b;
    var m := (-a) % b;
    assert -a == q * b + m && 0 <= m < b;
    assert (-q) * b == a + m;
    -q
  }

  /** Multiplying by a positive factor keeps order. */
  lemma MulMonotone(x: int, y: int, b: int)
    requires x <= y && b > 0
    ensures x * b <= y * b
  {
    var d := y - x;
    assert y * b == x * b + d * b;
  }

  /** A factor of at least one moves a product away from zero. */
  lemma MulCovers(x: int, b: int)
    requires b >= 1
    ensures x >= 0 ==> x <= x * b
    ensures x <= 0 ==> x * b <= x
  {
    if x > 0 {
      MulMonotone(1, b, x);
    } else if x < 0 {
      MulMonotone(1, b, -x);
    }
  }

  /** The bracketing of `CeilDiv` determines it: no other integer satisfies it. */
  lemma CeilDivUnique(a: int, b: int, r: int)
    requires b > 0
    requires (r - 1) * b < a <= r * b
    ensures r == CeilDiv(a, b)
  {
    var c := CeilDiv(a, b);
    if r < c {
      MulMonotone(r, c - 1, b);
    } else if r > c {
      MulMonotone(c, r - 1, b);
    }
  }
}

=== FILE: experiments.dfy ===
/**
 * Experiment booking (db/user_experiments.py): GeneWeaver DGE analysis,
 * GeneWeaver viral vector modification and Intraspectra visual acquisition.
 * Each computes its shift requirement, checks its resources (a cartridge for
 * both GeneWeaver bookings, credits for DGE and visual acquisition), asks for
 * confirmation, then deducts greedily from the four TA counters and logs the
 * experiment. The confirmation is the user's raw reply; it is trimmed and
 * lower-cased before it is compared with "" and "y".
 */
module UserExperiments {
  import opened Common
  import opened ShiftDeduction
  import opened Ledger
  import opened Tables

  /**
   * The characters below U+0080 that `str.strip()` removes: space, tab,
   * line feed, vertical tab, form feed, carriage return and the four
   * information separators U+001C to U+001F.
   */
  predicate IsSpace(c: char)
  {
    c == ' ' || 9 <= c as int <= 13 || 28 <= c as int <= 31
  }

  /** How many whitespace characters lead the reply. */
  function LeadingSpaces(s: string): (n: nat)
    ensures n <= |s|
    ensures forall k :: 0 <= k < n ==> IsSpace(s[k])
    ensures n < |s| ==> !IsSpace(s[n])
  {
    if |s| > 0 && IsSpace(s[0]) then
      var m := LeadingSpaces(s[1..]);
      assert forall k :: 1 <= k < m + 1 ==> s[k] == s[1..][k - 1];
      1 + m
    else 0
  }

  /** Where the reply's content ends: everything from there on is whitespace. */
  function ContentEnd(s: string): (n: nat)
    ensures n <= |s|
    ensures forall k :: n <= k < |s| ==> IsSpace(s[k])
    ensures n > 0 ==> !IsSpace(s[n - 1])
  {
    if |s| > 0 && IsSpace(s[|s| - 1]) then ContentEnd(s[..|s| - 1]) else |s|
  }

  /**
   * `strip()`: the reply is cut to the slice after its leading whitespace
   * that neither starts nor ends with whitespace, and everything cut away
   * after it is whitespace too.
   */
  function Strip(s: string): (r: string)
    ensures LeadingSpaces(s) + |r| <= |s| && r == s[LeadingSpaces(s)..LeadingSpaces(s) + |r|]
    ensures forall k :: LeadingSpaces(s) + |r| <= k < |s| ==> IsSpace(s[k])
    ensures |r| > 0 ==> !IsSpace(r[0]) && !IsSpace(r[|r| - 1])
  {
    var lo, hi := LeadingSpaces(s), ContentEnd(s);
    if hi <= lo then [] else s[lo..hi]
  }

  /** `lower()` on one character, for the ASCII letters. */
  function LowerChar(c: char): char
  {
    if 'A' <= c <= 'Z' then (c as int + 32) as char else c
  }

  function Lower(s: string): (r: string)
    ensures |r| == |s|
    ensures forall i :: 0 <= i < |s| ==> r[i] == LowerChar(s[i])
  {
    if |s| == 0 then [] else [LowerChar(s[0])] + Lower(s[1..])
  }

  /** The confirmation gate: the stripped, lower-cased reply is empty or "y". */
  predicate Confirms(reply: string)
  {
    var answer := Lower(Strip(reply));
    answer == "" || answer == "y"
  }

  /**
   * Exactly three stripped replies book the experiment: nothing, "y" and
   * "Y"; surrounding whitespace never matters.
   */
  lemma ConfirmsExactly(reply: string)
    ensures Confirms(reply) <==> Strip(reply) in {"", "y", "Y"}
  {
    var s := Strip(reply);
    if |s| == 1 && Lower(s) == "y" {
      assert LowerChar(s[0]) == 'y';
      assert s == [s[0]];
    }
  }

  /** The subject count of each group, in order. */
  function SubjectCounts(groups: seq<Group>): (r: seq<int>)
    ensures |r| == |groups|
    ensures forall i :: 0 <= i < |groups| ==> r[i] == groups[i].subjectCount
  {
    seq(|groups|, i requires 0 <= i < |groups| => groups[i].subjectCount)
  }

  /** Total number of subjects over all groups. */
  function SubjectTotal(groups: seq<Group>): int
  {
    Sum(SubjectCounts(groups))
  }

  /** With no negative group, the total is non-negative and covers each group's count. */
  lemma SubjectTotalBounds(groups: seq<Group>)
    requires forall i :: 0 <= i < |groups| ==> groups[i].subjectCount >= 0
    ensures SubjectTotal(groups) >= 0
    ensures forall i :: 0 <= i < |groups| ==> groups[i].subjectCount <= SubjectTotal(groups)
  {
    var counts := SubjectCounts(groups);
    SumNonNeg(counts);
    SumCoversElement(counts);
  }

  /** Five samples per shift, rounded up. */
  function DgeShiftsRequired(totalSamples: int): (r: int)
    ensures (r - 1) * 5 < totalSamples <= r * 5
  {
    CeilDiv(totalSamples, 5)
  }

  /**
   * Compute cost in credits: one unit per requested sequence per sample, or
   * a flat 1000 per sample when no positive maximum is given.
   */
  function DgeComputeCost(totalSamples: int, maxSequences: int): (r: int)
    ensures totalSamples >= 0 ==> totalSamples <= r
    ensures totalSamples <= 0 ==> r <= totalSamples
  {
    if maxSequences > 0 then
      MulCovers(totalSamples, maxSequences);
      totalSamples * maxSequences
    else totalSamples * 1000
  }

  /** More samples never cost less, whatever the sequence limit. */
  lemma DgeComputeCostMonotone(totalSamples: int, moreSamples: int, maxSequences: int)
    requires totalSamples <= moreSamples
    ensures DgeComputeCost(totalSamples, maxSequences) <= DgeComputeCost(moreSamples, maxSequences)
  {
    if maxSequences > 0 {
      MulMonotone(totalSamples, moreSamples, maxSequences);
    }
  }

  function RunDgeAnalysis(db: Db, userId: int, form: DgeForm, answer: string): (r: Outcome<Experiment>)
    ensures |db.inventories| == 0 ==> r == Failure(InventoryNotInitialized)
    ensures |db.inventories| > 0 && db.inventories[0].xattyCartridge < 1
            ==> r == Failure(NotEnoughCartridges(XattyCartridge))
    ensures |db.inventories| > 0 && db.inventories[0].xattyCartridge >= 1
            && TotalShifts(db.inventories[0]) < DgeShiftsRequired(SubjectTotal(form.groups))
            ==> r == Failure(NotEnoughShifts(DgeShiftsRequired(SubjectTotal(form.groups)), TotalShifts(db.inventories[0])))
    ensures |db.inventories| > 0 && db.inventories[0].xattyCartridge >= 1
            && TotalShifts(db.inventories[0]) >= DgeShiftsRequired(SubjectTotal(form.groups))
            ==> (!Confirms(answer) ==> r == Failure(NotConfirmed))
                && (Confirms(answer)
                    && db.inventories[0].credits < DgeComputeCost(SubjectTotal(form.groups), form.maxSequences) as real
                    ==> r == Failure(InsufficientCredits(db.inventories[0].credits,
                                                         DgeComputeCost(SubjectTotal(form.groups), form.maxSequences) as real)))
    ensures r.Success? <==>
            && |db.inventories| > 0
            && db.inventories[0].xattyCartridge >= 1
            && TotalShifts(db.inventories[0]) >= DgeShiftsRequired(SubjectTotal(form.groups))
            && Confirms(answer)
            && db.inventories[0].credits >= DgeComputeCost(SubjectTotal(form.groups), form.maxSequences) as real
    ensures r.Success? ==>
            && r.record == Experiment(userId, "GeneWeaver", "DGE Analysis", 2, false, GeneWeaverDge(form, XattyCartridge))
            && r.db.experiments == db.experiments + [r.record]
            && |r.db.inventories| == |db.inventories| && r.db.inventories[1..] == db.inventories[1..]
            && r.db.users == db.users && r.db.catalog == db.catalog && r.db.orders == db.orders
  {
    if |db.inventories| == 0 then Failure(InventoryNotInitialized)
    else
      var inv := db.inventories[0];
      var totalSamples := SubjectTotal(form.groups);
      var required := DgeShiftsRequired(totalSamples);
      if inv.xattyCartridge < 1 then Failure(NotEnoughCartridges(XattyCartridge))
      else if TotalShifts(inv) < required then Failure(NotEnoughShifts(required, TotalShifts(inv)))
      else
        var cost := DgeComputeCost(totalSamples, form.maxSequences);
        if !Confirms(answer) then Failure(NotConfirmed)
        else
          // cartridge and shifts are taken from the in-memory row first; the
          // credit check that follows aborts without committing either
          var afterCartridge := inv.(xattyCartridge := inv.xattyCartridge - 1);
          var afterShifts := WithTaShifts(afterCartridge, Deduct(TaShifts(afterCartridge), required));
          if afterShifts.credits < cost as real then Failure(InsufficientCredits(afterShifts.credits, cost as real))
          else
            var inv' := afterShifts.(credits := afterShifts.credits - cost as real);
            var exp := Experiment(userId, "GeneWeaver", "DGE Analysis", 2, false, GeneWeaverDge(form, XattyCartridge));
            Success(StoreInventory(db, inv').(experiments := db.experiments + [exp]), exp)
  }

  /**
   * A committed DGE booking on a valid ledger with a subject total above -5 spends
   * exactly one XATTY cartridge, exactly the required shifts (draining the
   * TA counters in order) and exactly the compute cost, changes no other
   * field, and keeps the ledger valid.
   */
  lemma DgeSuccessEffects(db: Db, userId: int, form: DgeForm, answer: string)
    requires |db.inventories| > 0 && Valid(db.inventories[0])
    requires SubjectTotal(form.groups) > -5
    requires RunDgeAnalysis(db, userId, form, answer).Success?
    ensures var inv, inv' := db.inventories[0], RunDgeAnalysis(db, userId, form, answer).db.inventories[0];
            var total := SubjectTotal(form.groups);
            && inv'.xattyCartridge == inv.xattyCartridge - 1
            && TotalShifts(inv') == TotalShifts(inv) - DgeShiftsRequired(total)
            && NeverIncreases(TaShifts(inv), TaShifts(inv'))
            && DrainedInOrder(TaShifts(inv), TaShifts(inv'))
            && inv'.credits == inv.credits - DgeComputeCost(total, form.maxSequences) as real
            && WithTaShifts(inv', TaShifts(inv)).(xattyCartridge := inv.xattyCartridge, credits := inv.credits) == inv
            && Valid(inv')
  {
    var inv, inv' := db.inventories[0], RunDgeAnalysis(db, userId, form, answer).db.inventories[0];
    var total := SubjectTotal(form.groups);
    assert DgeShiftsRequired(total) >= 0 by {
      if DgeShiftsRequired(total) < 0 {
        MulMonotone(DgeShiftsRequired(total), -1, 5);
      }
    }
    DeductSpec(TaShifts(inv), DgeShiftsRequired(total));
    assert TaShifts(inv') == Deduct(TaShifts(inv), DgeShiftsRequired(total));
    ValidAfterBooking(inv, inv');
  }

  function RunViralModification(db: Db, userId: int, form: ViralForm, answer: string): (r: Outcome<Experiment>)
    ensures |db.inventories| == 0 ==> r == Failure(InventoryNotInitialized)
    ensures |db.inventories| > 0 && db.inventories[0].xattyCartridge < 1
            ==> r == Failure(NotEnoughCartridges(XattyCartridge))
    ensures |db.inventories| > 0 && db.inventories[0].xattyCartridge >= 1
            && TotalShifts(db.inventories[0]) < SubjectTotal(form.groups)
            ==> r == Failure(NotEnoughShifts(SubjectTotal(form.groups), TotalShifts(db.inventories[0])))
    ensures |db.inventories| > 0 && db.inventories[0].xattyCartridge >= 1
            && TotalShifts(db.inventories[0]) >= SubjectTotal(form.groups) && !Confirms(answer)
            ==> r == Failure(NotConfirmed)
    ensures r.Success? <==>
            && |db.inventories| > 0
            && db.inventories[0].xattyCartridge >= 1
            && TotalShifts(db.inventories[0]) >= SubjectTotal(form.groups)
            && Confirms(answer)
    ensures r.Success? ==>
            && r.record == Experiment(userId, "GeneWeaver", "Viral Vector Modification", 3, false,
                                      GeneWeaverViral(form, XattyCartridge))
            && r.db.experiments == db.experiments + [r.record]
            && |r.db.inventories| == |db.inventories| && r.db.inventories[1..] == db.inventories[1..]
            && r.db.users == db.users && r.db.catalog == db.catalog && r.db.orders == db.orders
  {
    if |db.inventories| == 0 then Failure(InventoryNotInitialized)
    else
      var inv := db.inventories[0];
      // one shift per animal
      var required := SubjectTotal(form.groups);
      if inv.xattyCartridge < 1 then Failure(NotEnoughCartridges(XattyCartridge))
      else if TotalShifts(inv) < required then Failure(NotEnoughShifts(required, TotalShifts(inv)))
      else if !Confirms(answer) then Failure(NotConfirmed)
      else
        var afterCartridge := inv.(xattyCartridge := inv.xattyCartridge - 1);
        var inv' := WithTaShifts(afterCartridge, Deduct(TaShifts(afterCartridge), required));
        var exp := Experiment(userId, "GeneWeaver", "Viral Vector Modification", 3, false,
                              GeneWeaverViral(form, XattyCartridge));
        Success(StoreInventory(db, inv').(experiments := db.experiments + [exp]), exp)
  }

  /**
   * A committed viral booking spends exactly one XATTY cartridge and one
   * shift per subject, leaves credits and every other field alone, and keeps
   * the ledger valid.
   */
  lemma ViralSuccessEffects(db: Db, userId: int, form: ViralForm, answer: string)
    requires |db.inventories| > 0 && Valid(db.inventories[0])
    requires SubjectTotal(form.groups) >= 0
    requires RunViralModification(db, userId, form, answer).Success?
    ensures var inv, inv' := db.inventories[0], RunViralModification(db, userId, form, answer).db.inventories[0];
            && inv'.xattyCartridge == inv.xattyCartridge - 1
            && TotalShifts(inv') == TotalShifts(inv) - SubjectTotal(form.groups)
            && NeverIncreases(TaShifts(inv), TaShifts(inv'))
            && DrainedInOrder(TaShifts(inv), TaShifts(inv'))
            && inv'.credits == inv.credits
            && WithTaShifts(inv', TaShifts(inv)).(xattyCartridge := inv.xattyCartridge) == inv
            && Valid(inv')
  {
    var inv, inv' := db.inventories[0], RunViralModification(db, userId, form, answer).db.inventories[0];
    DeductSpec(TaShifts(inv), SubjectTotal(form.groups));
    assert TaShifts(inv') == Deduct(TaShifts(inv), SubjectTotal(form.groups));
    ValidAfterBooking(inv, inv');
  }

  /** Samples one shift covers, by capture type; any other type is invalid. */
  function SamplesPerShift(captureType: string): (r: Option<int>)
    ensures r.Some? <==> captureType == "Single_Frame" || captureType == "Time_Series"
    ensures r.Some? ==> r.value > 0
  {
    if captureType == "Single_Frame" then Some(10)
    else if captureType == "Time_Series" then Some(5)
    else None
  }

  /** Frames to process: one per subject, or 10000 per subject for a time series. */
  function TotalFrames(subjectCount: int, captureType: string): (r: int)
    ensures subjectCount >= 0 ==> subjectCount <= r
    ensures subjectCount <= 0 ==> r <= subjectCount
    ensures r == 0 <==> subjectCount == 0
  {
    if captureType == "Single_Frame" then subjectCount else subjectCount * 10000
  }

  /** OCS cost: whole jobs of 1000 frames, 1000 credits each. */
  function OcsCost(totalFrames: int): (r: int)
    ensures r % 1000 == 0
    ensures totalFrames <= r < totalFrames + 1000
  {
    CeilDiv(totalFrames, 1000) * 1000
  }

  /** No smaller multiple of 1000 covers the frames: the OCS cost is the least one. */
  lemma OcsCostIsLeast(totalFrames: int, c: int)
    requires c % 1000 == 0 && totalFrames <= c
    ensures OcsCost(totalFrames) <= c
  {
    var k := c / 1000;
    assert c == k * 1000;
    var j := CeilDiv(totalFrames, 1000);
    if k < j {
      MulMonotone(k, j - 1, 1000);
    }
  }

  function RunIntraspectraVisual(db: Db, userId: int, form: VisualForm, answer: string): (r: Outcome<Experiment>)
    ensures |db.inventories| == 0 ==> r == Failure(InventoryNotInitialized)
    ensures |db.inventories| > 0 && SamplesPerShift(form.captureType).None?
            ==> r == Failure(InvalidCaptureType(form.captureType))
    ensures |db.inventories| > 0 && SamplesPerShift(form.captureType).Some?
            ==> var inv := db.inventories[0];
                var required := CeilDiv(form.subjectCount, SamplesPerShift(form.captureType).value);
                var cost := OcsCost(TotalFrames(form.subjectCount, form.captureType)) as real;
                && (TotalShifts(inv) < required ==> r == Failure(NotEnoughShifts(required, TotalShifts(inv))))
                && (TotalShifts(inv) >= required && inv.credits < cost
                    ==> r == Failure(InsufficientCredits(inv.credits, cost)))
                && (TotalShifts(inv) >= required && inv.credits >= cost && !Confirms(answer)
                    ==> r == Failure(NotConfirmed))
    ensures r.Success? <==>
            && |db.inventories| > 0
            && SamplesPerShift(form.captureType).Some?
            && TotalShifts(db.inventories[0]) >= CeilDiv(form.subjectCount, SamplesPerShift(form.captureType).value)
            && db.inventories[0].credits >= OcsCost(TotalFrames(form.subjectCount, form.captureType)) as real
            && Confirms(answer)
    ensures r.Success? ==>
            && r.record == Experiment(userId, "Intraspectra", "Visual Acquisition", 1, false, IntraspectraVisual(form))
            && r.db.experiments == db.experiments + [r.record]
            && |r.db.inventories| == |db.inventories| && r.db.inventories[1..] == db.inventories[1..]
            && r.db.users == db.users && r.db.catalog == db.catalog && r.db.orders == db.orders
  {
    if |db.inventories| == 0 then Failure(InventoryNotInitialized)
    else
      var inv := db.inventories[0];
      match SamplesPerShift(form.captureType)
      case None => Failure(InvalidCaptureType(form.captureType))
      case Some(perShift) =>
        var required := CeilDiv(form.subjectCount, perShift);
        var cost := OcsCost(TotalFrames(form.subjectCount, form.captureType));
        if TotalShifts(inv) < required then Failure(NotEnoughShifts(required, TotalShifts(inv)))
        else if inv.credits < cost as real then Failure(InsufficientCredits(inv.credits, cost as real))
        else if !Confirms(answer) then Failure(NotConfirmed)
        else
          var inv' := WithTaShifts(inv, Deduct(TaShifts(inv), required)).(credits := inv.credits - cost as real);
          var exp := Experiment(userId, "Intraspectra", "Visual Acquisition", 1, false, IntraspectraVisual(form));
          Success(StoreInventory(db, inv').(experiments := db.experiments + [exp]), exp)
  }

  /**
   * A committed visual acquisition with a non-negative subject count spends
   * exactly the required shifts and the OCS cost, touches no cartridge or
   * other field, and keeps the ledger valid.
   */
  lemma VisualSuccessEffects(db: Db, userId: int, form: VisualForm, answer: string)
    requires |db.inventories| > 0 && Valid(db.inventories[0])
    requires form.subjectCount >= 0
    requires RunIntraspectraVisual(db, userId, form, answer).Success?
    ensures var inv, inv' := db.inventories[0], RunIntraspectraVisual(db, userId, form, answer).db.inventories[0];
            var perShift := SamplesPerShift(form.captureType).value;
            && TotalShifts(inv') == TotalShifts(inv) - CeilDiv(form.subjectCount, perShift)
            && NeverIncreases(TaShifts(inv), TaShifts(inv'))
            && DrainedInOrder(TaShifts(inv), TaShifts(inv'))
            && inv'.credits == inv.credits - OcsCost(TotalFrames(form.subjectCount, form.captureType)) as real
            && (forall a: Article :: ArticleCount(inv', a) == ArticleCount(inv, a))
            && WithTaShifts(inv', TaShifts(inv)).(credits := inv.credits) == inv
            && Valid(inv')
  {
    var inv, inv' := db.inventories[0], RunIntraspectraVisual(db, userId, form, answer).db.inventories[0];
    var perShift := SamplesPerShift(form.captureType).value;
    var required := CeilDiv(form.subjectCount, perShift);
    assert required >= 0 by {
      if required < 0 {
        MulMonotone(required, -1, perShift);
      }
    }
    DeductSpec(TaShifts(inv), required);
    assert TaShifts(inv') == Deduct(TaShifts(inv), required);
    assert ArticleCount(inv, XattyCartridge) >= 0;
    ValidAfterBooking(inv, inv');
  }

  /**
   * A booking that leaves shifts non-negative, credits non-negative and
   * cartridge counters non-negative keeps the ledger valid.
   */
  lemma ValidAfterBooking(inv: Inventory, inv': Inventory)
    requires Valid(inv)
    requires AllNonNeg(TaShifts(inv')) && inv'.credits >= 0.0
    requires inv'.xattyCartridge >= 0
    requires forall a: Article :: a != XattyCartridge ==> ArticleCount(inv', a) == ArticleCount(inv, a)
    ensures Valid(inv')
  {
  }

  /**
   * A subject total of -5 or less is not rejected: DGE then requires a
   * negative number of shifts and has a negative compute cost, so the booking
   * credits the ledger and hands the first TA extra shifts.
   */
  lemma NegativeSubjectsAddResources(db: Db, userId: int, form: DgeForm, answer: string)
    requires |db.inventories| > 0 && Valid(db.inventories[0])
    requires SubjectTotal(form.groups) <= -5 && db.inventories[0].xattyCartridge >= 1 && Confirms(answer)
    ensures var r := RunDgeAnalysis(db, userId, form, answer);
            r.Success?
            && r.db.inventories[0].credits > db.inventories[0].credits
            && r.db.inventories[0].taSaltosShifts > db.inventories[0].taSaltosShifts
  {
    var inv := db.inventories[0];
    var total := SubjectTotal(form.groups);
    var required := DgeShiftsRequired(total);
    assert required < 0;
    SumNonNeg(TaShifts(inv));
    assert DgeComputeCost(total, form.maxSequences) < 0;
    NegativeRequirementAddsShifts(TaShifts(inv.(xattyCartridge := inv.xattyCartridge - 1)), required);
  }

  /**
   * A negative subject total does not block a viral booking: it costs no
   * credits and hands the first TA extra shifts.
   */
  lemma NegativeViralAddsShifts(db: Db, userId: int, form: ViralForm, answer: string)
    requires |db.inventories| > 0 && Valid(db.inventories[0])
    requires SubjectTotal(form.groups) < 0 && db.inventories[0].xattyCartridge >= 1 && Confirms(answer)
    ensures var r := RunViralModification(db, userId, form, answer);
            && r.Success?
            && r.db.inventories[0].credits == db.inventories[0].credits
            && r.db.inventories[0].taSaltosShifts == db.inventories[0].taSaltosShifts - SubjectTotal(form.groups)
  {
    var inv := db.inventories[0];
    SumNonNeg(TaShifts(inv));
    NegativeRequirementAddsShifts(TaShifts(inv.(xattyCartridge := inv.xattyCartridge - 1)), SubjectTotal(form.groups));
  }

  /**
   * A visual booking with a negative subject count never takes shifts or
   * credits; a single-frame count from -9 to -1 rounds to no shifts and no
   * cost, and leaves the ledger row exactly as it was.
   */
  lemma NegativeVisualNeverCharges(db: Db, userId: int, form: VisualForm, answer: string)
    requires |db.inventories| > 0 && Valid(db.inventories[0])
    requires form.subjectCount < 0
    requires RunIntraspectraVisual(db, userId, form, answer).Success?
    ensures var inv, inv' := db.inventories[0], RunIntraspectraVisual(db, userId, form, answer).db.inventories[0];
            && inv'.credits >= inv.credits
            && TotalShifts(inv') >= TotalShifts(inv)
            && (form.captureType == "Single_Frame" && -9 <= form.subjectCount ==> inv' == inv)
  {
    var inv := db.inventories[0];
    var perShift := SamplesPerShift(form.captureType).value;
    var required := CeilDiv(form.subjectCount, perShift);
    assert required <= 0 by {
      if required > 0 {
        MulMonotone(0, required - 1, perShift);
      }
    }
    var cost := OcsCost(TotalFrames(form.subjectCount, form.captureType));
    assert cost <= 0;
    if required < 0 {
      NegativeRequirementAddsShifts(TaShifts(inv), required);
    } else {
      DeductSpec(TaShifts(inv), 0);
    }
    if form.captureType == "Single_Frame" && -9 <= form.subjectCount {
      CeilDivUnique(form.subjectCount, 10, 0);
      CeilDivUnique(form.subjectCount, 1000, 0);
    }
  }

  /**
   * Whatever the requirement, as long as the counters cover it, greedy
   * deduction leaves no counter negative: a negative requirement only adds
   * to the first counter.
   */
  lemma DeductKeepsNonNeg(fields: seq<int>, required: int)
    requires |fields| == 4 && AllNonNeg(fields)
    requires required <= Sum(fields)
    ensures AllNonNeg(Deduct(fields, required))
  {
    if required >= 0 {
      DeductSpec(fields, required);
    } else {
      NegativeRequirementAddsShifts(fields, required);
    }
  }

  /**
   * The exact effect of every committed DGE booking on a valid ledger,
   * whatever its subject total: one XATTY cartridge less, the shift total
   * lowered by the requirement (raised when it is negative), the credits
   * lowered by the compute cost (raised when it is negative), and no other
   * field changed.
   */
  lemma DgeBookingDeltas(db: Db, userId: int, form: DgeForm, answer: string)
    requires |db.inventories| > 0 && Valid(db.inventories[0])
    requires RunDgeAnalysis(db, userId, form, answer).Success?
    ensures var inv, inv' := db.inventories[0], RunDgeAnalysis(db, userId, form, answer).db.inventories[0];
            var total := SubjectTotal(form.groups);
            && inv'.xattyCartridge == inv.xattyCartridge - 1
            && TotalShifts(inv') == TotalShifts(inv) - DgeShiftsRequired(total)
            && inv'.credits == inv.credits - DgeComputeCost(total, form.maxSequences) as real
            && WithTaShifts(inv', TaShifts(inv)).(xattyCartridge := inv.xattyCartridge, credits := inv.credits) == inv
  {
    var inv, inv' := db.inventories[0], RunDgeAnalysis(db, userId, form, answer).db.inventories[0];
    var required := DgeShiftsRequired(SubjectTotal(form.groups));
    if required >= 0 {
      DeductSpec(TaShifts(inv), required);
    } else {
      NegativeRequirementAddsShifts(TaShifts(inv), required);
    }
    assert TaShifts(inv') == Deduct(TaShifts(inv), required);
  }

  /** Every committed DGE booking on a valid ledger, whatever its subject counts, keeps it valid. */
  lemma DgeKeepsValid(db: Db, userId: int, form: DgeForm, answer: string)
    requires |db.inventories| > 0 && Valid(db.inventories[0])
    requires RunDgeAnalysis(db, userId, form, answer).Success?
    ensures Valid(RunDgeAnalysis(db, userId, form, answer).db.inventories[0])
  {
    var inv, inv' := db.inventories[0], RunDgeAnalysis(db, userId, form, answer).db.inventories[0];
    var required := DgeShiftsRequired(SubjectTotal(form.groups));
    DeductKeepsNonNeg(TaShifts(inv), required);
    assert TaShifts(inv') == Deduct(TaShifts(inv), required);
    ValidAfterBooking(inv, inv');
  }

  /** Every committed viral booking on a valid ledger, whatever its subject counts, keeps it valid. */
  lemma ViralKeepsValid(db: Db, userId: int, form: ViralForm, answer: string)
    requires |db.inventories| > 0 && Valid(db.inventories[0])
    requires RunViralModification(db, userId, form, answer).Success?
    ensures Valid(RunViralModification(db, userId, form, answer).db.inventories[0])
  {
    var inv, inv' := db.inventories[0], RunViralModification(db, userId, form, answer).db.inventories[0];
    DeductKeepsNonNeg(TaShifts(inv), SubjectTotal(form.groups));
    assert TaShifts(inv') == Deduct(TaShifts(inv), SubjectTotal(form.groups));
    ValidAfterBooking(inv, inv');
  }

  /** Every committed visual booking on a valid ledger, whatever its subject count, keeps it valid. */
  lemma VisualKeepsValid(db: Db, userId: int, form: VisualForm, answer: string)
    requires |db.inventories| > 0 && Valid(db.inventories[0])
    requires RunIntraspectraVisual(db, userId, form, answer).Success?
    ensures Valid(RunIntraspectraVisual(db, userId, form, answer).db.inventories[0])
  {
    var inv, inv' := db.inventories[0], RunIntraspectraVisual(db, userId, form, answer).db.inventories[0];
    var required := CeilDiv(form.subjectCount, SamplesPerShift(form.captureType).value);
    DeductKeepsNonNeg(TaShifts(inv), required);
    assert TaShifts(inv') == Deduct(TaShifts(inv), required);
    assert ArticleCount(inv, XattyCartridge) >= 0;
    ValidAfterBooking(inv, inv');
  }
}

=== FILE: greedy.dfy ===
/**
 * Greedy shift deduction, the loop shared by every experiment booking
 * (db/user_experiments.py). The four TA shift counters are visited in a
 * fixed order; each gives up `min(available, remaining)` and the loop stops
 * as soon as nothing remains. The model follows that loop for every integer
 * input, including negative counters and negative requirements.
 */
module ShiftDeduction {
  import opened Common

  function Min(a: int, b: int): int
  {
    if a <= b then a else b
  }

  /**
   * The counters after taking `remaining` shifts greedily from `fields`,
   * first field first. The leftover requirement is discarded, as in the source.
   */
  function Deduct(fields: seq<int>, remaining: int): (r: seq<int>)
    ensures |r| == |fields|
    decreases |fields|
  {
    if |fields| == 0 then []
    else
      var used := Min(fields[0], remaining);
      if remaining - used == 0 then [fields[0] - used] + fields[1..]
      else [fields[0] - used] + Deduct(fields[1..], remaining - used)
  }

  /** No counter of `after` is above the same counter of `before`. */
  predicate NeverIncreases(before: seq<int>, after: seq<int>)
  {
    |before| == |after| &&
    forall i :: 0 <= i < |after| ==> after[i] <= before[i]
  }

  /**
   * A counter is lowered only when every counter before it in the fixed
   * order ends at zero.
   */
  predicate DrainedInOrder(before: seq<int>, after: seq<int>)
  {
    |before| == |after| &&
    forall i, j :: 0 <= j < i < |after| && after[i] < before[i] ==> after[j] == 0
  }

  /**
   * With non-negative counters whose total covers the requirement, the
   * greedy pass lowers the total by exactly the requirement, keeps every
   * counter non-negative, only lowers counters, drains earlier counters
   * before touching later ones, and changes nothing for a zero requirement.
   */
  lemma {:induction false} DeductSpec(fields: seq<int>, required: int)
    requires AllNonNeg(fields)
    requires 0 <= required <= Sum(fields)
    ensures Sum(Deduct(fields, required)) == Sum(fields) - required
    ensures AllNonNeg(Deduct(fields, required))
    ensures NeverIncreases(fields, Deduct(fields, required))
    ensures DrainedInOrder(fields, Deduct(fields, required))
    ensures required == 0 ==> Deduct(fields, required) == fields
  {
    if |fields| > 0 {
      var rest := fields[1..];
      assert fields == [fields[0]] + rest;
      SumCons(fields[0], rest);
      SumNonNeg(rest);
      if required <= fields[0] {
        SumCons(fields[0] - required, rest);
        FirstAbsorbs(fields[0], rest, required);
      } else {
        var tail := Deduct(rest, required - fields[0]);
        DeductSpec(rest, required - fields[0]);
        SumCons(0, tail);
        FirstDrained(fields[0], rest, tail);
      }
    }
  }

  /** When the first counter covers the requirement, only it is lowered. */
  lemma FirstAbsorbs(f0: int, rest: seq<int>, required: int)
    requires 0 <= required <= f0
    requires AllNonNeg(rest)
    ensures Deduct([f0] + rest, required) == [f0 - required] + rest
    ensures AllNonNeg([f0 - required] + rest)
    ensures NeverIncreases([f0] + rest, [f0 - required] + rest)
    ensures DrainedInOrder([f0] + rest, [f0 - required] + rest)
  {
    assert ([f0] + rest)[1..] == rest;
  }

  /** Draining the first counter and deducting the rest from the others keeps the order. */
  lemma FirstDrained(f0: int, rest: seq<int>, tail: seq<int>)
    requires f0 >= 0
    requires AllNonNeg(tail)
    requires NeverIncreases(rest, tail) && DrainedInOrder(rest, tail)
    ensures AllNonNeg([0] + tail)
    ensures NeverIncreases([f0] + rest, [0] + tail)
    ensures DrainedInOrder([f0] + rest, [0] + tail)
  {
    var f, r := [f0] + rest, [0] + tail;
    forall i, j | 0 <= j < i < |r| && r[i] < f[i]
      ensures r[j] == 0
    {
      if j > 0 {
        assert tail[i - 1] < rest[i - 1];
      }
    }
  }

  /** If any later counter was lowered, the first counter ends at zero. */
  lemma LaterLoweredDrainsFirst(fields: seq<int>, t: seq<int>)
    requires |fields| > 0
    requires NeverIncreases(fields, t) && DrainedInOrder(fields, t)
    requires t[1..] != fields[1..]
    ensures t[0] == 0
  {
    var k :| 0 <= k < |t| - 1 && t[1..][k] != fields[1..][k];
    assert t[k + 1] < fields[k + 1];
  }

  /** The conditions of `DeductUnique` carry over to the remaining counters. */
  lemma ConditionsOnRest(fields: seq<int>, t: seq<int>)
    requires |fields| > 0
    requires AllNonNeg(fields) && AllNonNeg(t)
    requires NeverIncreases(fields, t) && DrainedInOrder(fields, t)
    ensures AllNonNeg(fields[1..]) && AllNonNeg(t[1..])
    ensures NeverIncreases(fields[1..], t[1..]) && DrainedInOrder(fields[1..], t[1..])
  {
    var rest, trest := fields[1..], t[1..];
    forall i, j | 0 <= j < i < |trest| && trest[i] < rest[i]
      ensures trest[j] == 0
    {
      assert t[i + 1] < fields[i + 1];
    }
  }

  /**
   * The greedy result is the ONLY way to take `required` shifts that never
   * raises a counter, keeps every counter non-negative and drains earlier
   * counters first: any such outcome equals `Deduct`.
   */
  lemma {:induction false} DeductUnique(fields: seq<int>, required: int, t: seq<int>)
    requires AllNonNeg(fields)
    requires AllNonNeg(t)
    requires NeverIncreases(fields, t)
    requires DrainedInOrder(fields, t)
    requires Sum(t) == Sum(fields) - required
    ensures t == Deduct(fields, required)
  {
    if |fields| > 0 {
      var rest, trest := fields[1..], t[1..];
      assert fields == [fields[0]] + rest;
      assert t == [t[0]] + trest;
      SumCons(fields[0], rest);
      SumCons(t[0], trest);
      ConditionsOnRest(fields, t);
      SumDominated(trest, rest);
      if required <= fields[0] {
        if trest != rest {
          LaterLoweredDrainsFirst(fields, t);
          // then the total dropped by more than `required`
          assert false;
        }
        assert Deduct(fields, required) == [fields[0] - required] + rest;
      } else {
        assert trest != rest;
        LaterLoweredDrainsFirst(fields, t);
        DeductUnique(rest, required - fields[0], trest);
        assert Deduct(fields, required) == [0] + Deduct(rest, required - fields[0]);
      }
    }
  }

  /**
   * A negative requirement (what a negative subject count produces) is not
   * rejected: the first counter absorbs it and GROWS by its magnitude.
   */
  lemma NegativeRequirementAddsShifts(fields: seq<int>, required: int)
    requires |fields| > 0 && fields[0] >= 0
    requires required < 0
    ensures Deduct(fields, required) == [fields[0] - required] + fields[1..]
    ensures Sum(Deduct(fields, required)) == Sum(fields) - required
  {
    SumCons(fields[0], fields[1..]);
    SumCons(fields[0] - required, fields[1..]);
    assert fields == [fields[0]] + fields[1..];
  }
}

=== FILE: inventory.dfy ===
/**
 * The single inventory record of the lab economy (db/models/inventory.py):
 * credits, four TA shift counters, juice boosters, four animal species with
 * a maximum and an available count, and eight cartridge counters. The
 * orderable articles (db/models/order.py) name inventory fields.
 */
module Ledger {
  import opened Common

  /** Stock of one animal species; -1 in both fields marks a species as unavailable. */
  datatype Stock = Stock(max: int, available: int)

  datatype Species = U51 | U51M | C248S | C248L

  /** The orderable articles; each names a counter of the inventory. */
  datatype Article =
    | XattyCartridge | ZeropointCartridge | NcPk1Cartridge
    | SmartFilamentSCartridge | SmartFilamentMCartridge | SmartFilamentLCartridge
    | MamrReelCartridge | DupontCartridge | Juice

  datatype Inventory = Inventory(
    credits: real,
    taSaltosShifts: int,
    taNitroShifts: int,
    taHeleneShifts: int,
    taCarnivalShifts: int,
    juice: int,
    animals51u6: Stock,
    animals51u6M: Stock,
    animalsC248S: Stock,
    animalsC248L: Stock,
    xattyCartridge: int,
    zeropointCartridge: int,
    ncPk1Cartridge: int,
    smartFilamentSCartridge: int,
    smartFilamentMCartridge: int,
    smartFilamentLCartridge: int,
    mamrReelCartridge: int,
    dupontCartridge: int)

  /** The string value of an article, which is also its inventory field name. */
  function ArticleValue(a: Article): string
  {
    match a
    case XattyCartridge => "xatty_cartridge"
    case ZeropointCartridge => "zeropoint_cartridge"
    case NcPk1Cartridge => "nc_pk1_cartridge"
    case SmartFilamentSCartridge => "smart_filament_s_cartridge"
    case SmartFilamentMCartridge => "smart_filament_m_cartridge"
    case SmartFilamentLCartridge => "smart_filament_l_cartridge"
    case MamrReelCartridge => "mamr_reel_cartrdige"
    case DupontCartridge => "dupont_cartridge"
    case Juice => "juice"
  }

  /**
   * Distinct articles have distinct values, so a catalog keyed by value
   * tells the articles apart.
   */
  lemma ArticleValueInjective(a: Article, b: Article)
    ensures ArticleValue(a) == ArticleValue(b) <==> a == b
  {
  }

  /** The inventory counter an article refers to. */
  function ArticleCount(inv: Inventory, a: Article): int
  {
    match a
    case XattyCartridge => inv.xattyCartridge
    case ZeropointCartridge => inv.zeropointCartridge
    case NcPk1Cartridge => inv.ncPk1Cartridge
    case SmartFilamentSCartridge => inv.smartFilamentSCartridge
    case SmartFilamentMCartridge => inv.smartFilamentMCartridge
    case SmartFilamentLCartridge => inv.smartFilamentLCartridge
    case MamrReelCartridge => inv.mamrReelCartridge
    case DupontCartridge => inv.dupontCartridge
    case Juice => inv.juice
  }

  function SpeciesStock(inv: Inventory, sp: Species): Stock
  {
    match sp
    case U51 => inv.animals51u6
    case U51M => inv.animals51u6M
    case C248S => inv.animalsC248S
    case C248L => inv.animalsC248L
  }

  predicate Unavailable(s: Stock)
  {
    s.max == -1 && s.available == -1
  }

  /** The TA shift counters in the fixed order saltos, nitro, helene, carnival. */
  function TaShifts(inv: Inventory): seq<int>
  {
    [inv.taSaltosShifts, inv.taNitroShifts, inv.taHeleneShifts, inv.taCarnivalShifts]
  }

  /** The inventory with its four TA counters replaced, in the fixed order. */
  function WithTaShifts(inv: Inventory, s: seq<int>): (r: Inventory)
    requires |s| == 4
    ensures TaShifts(r) == s
    ensures r.credits == inv.credits && r.juice == inv.juice
    ensures forall a: Article :: ArticleCount(r, a) == ArticleCount(inv, a)
    ensures forall sp: Species :: SpeciesStock(r, sp) == SpeciesStock(inv, sp)
  {
    inv.(taSaltosShifts := s[0], taNitroShifts := s[1],
         taHeleneShifts := s[2], taCarnivalShifts := s[3])
  }

  function TotalShifts(inv: Inventory): int
  {
    Sum(TaShifts(inv))
  }

  /**
   * The bounds the booking and ordering guards keep: no negative credits,
   * shift counters, juice or cartridge counters.
   */
  predicate Valid(inv: Inventory)
  {
    && inv.credits >= 0.0
    && AllNonNeg(TaShifts(inv))
    && forall a: Article :: ArticleCount(inv, a) >= 0
  }
}

=== FILE: orders.dfy ===
/**
 * Ordering with acquisition tiers (db/user_actions.py): the tier table and
 * `place_order`, a guarded check-then-commit that pays the order up front
 * and queues a delayed delivery.
 */
module UserActions {
  import opened Common
  import opened Ledger
  import opened Tables

  /** Urgency of an acquisition (db/models/acquisition.py). */
  datatype AcquisitionType = Quick | Standard | Smart

  datatype Rule = Rule(cooldown: int, priceFactor: real)

  /**
   * The tier table: lead time in weeks and price multiplier. Every tier
   * waits one to three weeks at a positive factor, and only the standard
   * tier charges the catalog price unchanged.
   */
  function AcquisitionRule(t: AcquisitionType): (r: Rule)
    ensures 1 <= r.cooldown <= 3 && r.priceFactor > 0.0
    ensures r.priceFactor == 1.0 <==> t == Standard
  {
    match t
    case Quick => Rule(1, 2.00)
    case Standard => Rule(2, 1.00)
    case Smart => Rule(3, 0.80)
  }

  /**
   * The three tiers trade time for money: they are pairwise distinct, and a
   * longer lead time always means a strictly lower price factor.
   */
  lemma TierTradeOff(t: AcquisitionType, u: AcquisitionType)
    ensures AcquisitionRule(t).cooldown < AcquisitionRule(u).cooldown
            <==> AcquisitionRule(t).priceFactor > AcquisitionRule(u).priceFactor
    ensures AcquisitionRule(t) == AcquisitionRule(u) <==> t == u
  {
  }

  /**
   * What a successful order costs: defined exactly when the article has a
   * catalog price; the standard tier pays that price, and a non-negative
   * price never gives a negative cost.
   */
  function OrderCost(catalog: seq<CatalogItem>, a: Article, t: AcquisitionType): (r: Option<real>)
    ensures r.Some? <==> CatalogPrice(catalog, a).Some?
    ensures r.Some? && t == Standard ==> r.value == CatalogPrice(catalog, a).value
    ensures r.Some? && CatalogPrice(catalog, a).value >= 0.0 ==> r.value >= 0.0
  {
    match CatalogPrice(catalog, a)
    case None => None
    case Some(price) => Some(price * AcquisitionRule(t).priceFactor)
  }

  /**
   * `place_order`: the user must exist, the article must be in the catalog,
   * the inventory must be initialised and hold at least the cost in credits.
   * Only then is the cost deducted and one delivery order queued.
   */
  function PlaceOrder(db: Db, userId: int, article: Article, tier: AcquisitionType): (r: Outcome<Order>)
    ensures userId !in db.users ==> r == Failure(UserNotFound(userId))
    ensures userId in db.users && CatalogPrice(db.catalog, article).None?
            ==> r == Failure(ArticleNotFound(article))
    ensures userId in db.users && CatalogPrice(db.catalog, article).Some? && |db.inventories| == 0
            ==> r == Failure(InventoryNotInitialized)
    ensures userId in db.users && OrderCost(db.catalog, article, tier).Some? && |db.inventories| > 0
            && db.inventories[0].credits < OrderCost(db.catalog, article, tier).value
            ==> r == Failure(InsufficientCredits(db.inventories[0].credits, OrderCost(db.catalog, article, tier).value))
    ensures r.Success? <==>
            && userId in db.users
            && OrderCost(db.catalog, article, tier).Some?
            && |db.inventories| > 0
            && db.inventories[0].credits >= OrderCost(db.catalog, article, tier).value
    ensures r.Success? ==>
            && Some(r.record.value) == OrderCost(db.catalog, article, tier)
            && r.record == Order(userId, article, r.record.value, AcquisitionRule(tier).cooldown, false, None, None)
            && r.db.orders == db.orders + [r.record]
            && r.db.inventories == [db.inventories[0].(credits := db.inventories[0].credits - r.record.value)]
                                   + db.inventories[1..]
            && r.db.users == db.users && r.db.catalog == db.catalog && r.db.experiments == db.experiments
  {
    if userId !in db.users then Failure(UserNotFound(userId))
    else
      match OrderCost(db.catalog, article, tier)
      case None => Failure(ArticleNotFound(article))
      case Some(cost) =>
        var rule := AcquisitionRule(tier);
        if |db.inventories| == 0 then Failure(InventoryNotInitialized)
        else
          var inv := db.inventories[0];
          if inv.credits < cost then Failure(InsufficientCredits(inv.credits, cost))
          else
            var order := Order(userId, article, cost, rule.cooldown, false, None, None);
            Success(StoreInventory(db, inv.(credits := inv.credits - cost)).(orders := db.orders + [order]), order)
  }

  /** Credits exactly equal to the cost are enough, and are spent down to zero. */
  lemma ExactCreditsSucceed(db: Db, userId: int, article: Article, tier: AcquisitionType)
    requires userId in db.users && |db.inventories| > 0
    requires OrderCost(db.catalog, article, tier) == Some(db.inventories[0].credits)
    ensures PlaceOrder(db, userId, article, tier).Success?
    ensures PlaceOrder(db, userId, article, tier).db.inventories[0].credits == 0.0
  {
  }

  /**
   * Ordering keeps the ledger bounds: a committed order never drives credits
   * negative and touches no other counter.
   */
  lemma PlaceOrderPreservesValid(db: Db, userId: int, article: Article, tier: AcquisitionType)
    requires |db.inventories| > 0 && Valid(db.inventories[0])
    ensures var r := PlaceOrder(db, userId, article, tier);
            r.Success? ==> Valid(r.db.inventories[0]) && ArticleCount(r.db.inventories[0], article) == ArticleCount(db.inventories[0], article)
  {
    var r := PlaceOrder(db, userId, article, tier);
    if r.Success? {
      var inv, inv' := db.inventories[0], r.db.inventories[0];
      assert inv' == inv.(credits := inv'.credits);
      forall a: Article
        ensures ArticleCount(inv', a) == ArticleCount(inv, a)
      {
      }
    }
  }

  /**
   * For the same catalog entry a quicker tier never costs less: quick is at
   * least standard, which is at least smart, whenever the base price is
   * non-negative; and the order waits the tier's lead time.
   */
  lemma QuickerCostsMore(catalog: seq<CatalogItem>, a: Article)
    requires CatalogPrice(catalog, a).Some? && CatalogPrice(catalog, a).value >= 0.0
    ensures OrderCost(catalog, a, Quick).value >= OrderCost(catalog, a, Standard).value
    ensures OrderCost(catalog, a, Standard).value >= OrderCost(catalog, a, Smart).value
  {
  }
}

=== FILE: scenarios.dfy ===
/**
 * What the model gives for the driver script's calls (main.py) on a freshly
 * initialised ledger, with the form data it passes to the bookings. For the
 * two bookings this is the intended behaviour: as written, the experiment
 * row lacks its non-nullable `subject_species`, so their first flush fails. The catalog price of
 * the XATTY cartridge is an assumed value: the catalog initialisation is not
 * part of this model.
 */
module Scenarios {
  import opened Common
  import ShiftDeduction
  import opened Ledger
  import opened Tables
  import opened AdminActions
  import opened UserActions
  import opened UserExperiments

  /** One user, a catalog holding only the XATTY cartridge at an assumed 70,000 credits, and the starting ledger. */
  function FreshDb(): (db: Db)
    ensures FirstInventory(db) == Some(InitialInventory())
  {
    InitializeInventory(Db({1}, [CatalogItem("xatty_cartridge", "XATTY cartridge", 70000.0, 1)], [], [], []))
  }

  function DriverDgeForm(): DgeForm
  {
    DgeForm(
      [Group("Control", 5, Some("Collect hippocampus tissue 30 min post-light."), None),
       Group("Treatment", 5, Some("Same as control + expose to drug X."), None)],
      5000, 2, "subtype", "Retinal ganglion cells")
  }

  function DriverVisualForm(): VisualForm
  {
    VisualForm(4, "Time_Series", "Microscopy", "Midbrain dorsal view, dissected and stained",
               Some(60.0), Some("Infrared_Thermal"), Some("Fluorescence"), Some("40x"))
  }

  /** The replies the scenarios give: an empty reply and "y" book, "n" does not. */
  lemma ScenarioReplies()
    ensures Confirms("") && Confirms("y") && !Confirms("n")
  {
    assert Strip("") == "";
    assert LeadingSpaces("y") == 0 && ContentEnd("y") == 1;
    assert Strip("y") == "y" && Lower("y") == "y";
    assert LeadingSpaces("n") == 0 && ContentEnd("n") == 1;
    assert Strip("n") == "n" && Lower("n") == "n";
  }

  /**
   * A quick order of the cartridge, at its assumed 70,000-credit price, costs twice the base price,
   * leaves 1,860,000 credits and queues one order due in one week; an
   * unknown user changes nothing.
   */
  lemma QuickOrderScenario()
    ensures var r := PlaceOrder(FreshDb(), 1, XattyCartridge, Quick);
            && r.Success?
            && r.db.inventories[0].credits == 1860000.0
            && r.db.orders == [Order(1, XattyCartridge, 140000.0, 1, false, None, None)]
    ensures var r := PlaceOrder(FreshDb(), 2, XattyCartridge, Quick);
            r == Failure(UserNotFound(2)) && Commit(FreshDb(), r) == FreshDb()
  {
    assert CatalogPrice(FreshDb().catalog, XattyCartridge) == Some(70000.0);
  }

  /**
   * Ten samples at 5000 sequences each: two shifts come off the first TA,
   * 50,000 credits and the only XATTY cartridge are spent, and a second
   * identical booking is then refused for lack of a cartridge.
   */
  lemma DgeScenario()
    ensures var r := RunDgeAnalysis(FreshDb(), 1, DriverDgeForm(), "y");
            && r.Success?
            && TaShifts(r.db.inventories[0]) == [118, 120, 120, 120]
            && r.db.inventories[0].credits == 1950000.0
            && r.db.inventories[0].xattyCartridge == 0
            && RunDgeAnalysis(r.db, 1, DriverDgeForm(), "y") == Failure(NotEnoughCartridges(XattyCartridge))
  {
    ScenarioReplies();
    DgeConfirmed("y");
  }

  /** The driver's DGE booking under any confirming reply. */
  lemma DgeConfirmed(answer: string)
    requires Confirms(answer)
    ensures var r := RunDgeAnalysis(FreshDb(), 1, DriverDgeForm(), answer);
            && r.Success?
            && TaShifts(r.db.inventories[0]) == [118, 120, 120, 120]
            && r.db.inventories[0].credits == 1950000.0
            && r.db.inventories[0].xattyCartridge == 0
            && RunDgeAnalysis(r.db, 1, DriverDgeForm(), answer) == Failure(NotEnoughCartridges(XattyCartridge))
  {
    var groups := DriverDgeForm().groups;
    assert SubjectCounts(groups) == [5, 5];
    assert [5, 5][1..][1..] == [];
    assert SubjectTotal(groups) == 10;
    CeilDivUnique(10, 5, 2);
    var s := TaShifts(InitialInventory().(xattyCartridge := 0));
    assert s == [120, 120, 120, 120];
  }

  /**
   * Four time-series subjects: one shift, 40,000 frames and so 40 OCS jobs
   * costing 40,000 credits; declining the prompt books nothing.
   */
  lemma VisualScenario()
    ensures var r := RunIntraspectraVisual(FreshDb(), 1, DriverVisualForm(), "");
            && r.Success?
            && TaShifts(r.db.inventories[0]) == [119, 120, 120, 120]
            && r.db.inventories[0].credits == 1960000.0
            && r.record.waitWeeks == 1
    ensures RunIntraspectraVisual(FreshDb(), 1, DriverVisualForm(), "n") == Failure(NotConfirmed)
  {
    ScenarioReplies();
    assert FreshDb().inventories == [InitialInventory()];
    VisualConfirmed(FreshDb(), DriverVisualForm(), "");
    VisualDeclined(FreshDb(), DriverVisualForm(), "n");
  }

  /** The driver's visual booking needs one shift and 40,000 credits. */
  lemma VisualRequirements()
    ensures CeilDiv(4, 5) == 1
    ensures OcsCost(TotalFrames(4, "Time_Series")) == 40000
  {
    CeilDivUnique(4, 5, 1);
    assert TotalFrames(4, "Time_Series") == 40000;
    CeilDivUnique(40000, 1000, 40);
  }

  /** Four time-series subjects on the starting ledger, under any confirming reply. */
  lemma VisualConfirmed(db: Db, form: VisualForm, answer: string)
    requires db.inventories == [InitialInventory()]
    requires form.subjectCount == 4 && form.captureType == "Time_Series"
    requires Confirms(answer)
    ensures var r := RunIntraspectraVisual(db, 1, form, answer);
            && r.Success?
            && TaShifts(r.db.inventories[0]) == [119, 120, 120, 120]
            && r.db.inventories[0].credits == 1960000.0
            && r.record.waitWeeks == 1
  {
    VisualRequirements();
    assert TaShifts(InitialInventory()) == [120, 120, 120, 120];
    assert ShiftDeduction.Deduct([120, 120, 120, 120], 1) == [119, 120, 120, 120];
  }

  /** Four time-series subjects on the starting ledger, under any declining reply. */
  lemma VisualDeclined(db: Db, form: VisualForm, answer: string)
    requires db.inventories == [InitialInventory()]
    requires form.subjectCount == 4 && form.captureType == "Time_Series"
    requires !Confirms(answer)
    ensures RunIntraspectraVisual(db, 1, form, answer) == Failure(NotConfirmed)
  {
    VisualRequirements();
    assert TaShifts(InitialInventory()) == [120, 120, 120, 120];
  }
}

=== FILE: tables.dfy ===
/**
 * The persisted state the actions read and write, reduced to what they
 * touch: the user ids, the item catalog, the inventory rows, the order
 * queue and the experiment log. Failures carry the reason the source raises
 * or prints; a failed action commits nothing.
 */
module Tables {
  import opened Common
  import opened Ledger

  /** A catalog entry (db/models/item_catalog.py). */
  datatype CatalogItem = CatalogItem(itemKey: string, displayName: string, chuanCost: real, waitWeeks: int)

  /** A pending order (db/models/order.py); date and time stamps are not modelled. */
  datatype Order = Order(
    userId: int,
    article: Article,
    value: real,
    waitWeeks: int,
    isEffect: bool,
    inventoryField: Option<string>,
    eventType: Option<string>)

  /** A subject group of a GeneWeaver experiment (db/models/geneweaver_group.py). */
  datatype Group = Group(
    groupName: string,
    subjectCount: int,
    samplingInstructions: Option<string>,
    modificationType: Option<string>)

  datatype DgeForm = DgeForm(
    groups: seq<Group>,
    maxSequences: int,
    foldChangeThreshold: int,
    cellTypeLevel: string,
    cellTypeDescription: string)

  datatype ViralForm = ViralForm(
    groups: seq<Group>,
    geneOfInterest: string,
    promoterSequence: Option<string>,
    transductionLevel: string,
    transductionDescription: string)

  datatype VisualForm = VisualForm(
    subjectCount: int,
    captureType: string,
    imagingTechnique: string,
    regionOfInterest: string,
    frameCaptureRate: Option<real>,
    spectralFilter: Option<string>,
    microscopyTechnique: Option<string>,
    magnificationLevel: Option<string>)

  /** The autostation-specific detail row written with an experiment. */
  datatype Detail =
    | GeneWeaverDge(dge: DgeForm, cartridgeUsed: Article)
    | GeneWeaverViral(viral: ViralForm, cartridgeUsed: Article)
    | IntraspectraVisual(visual: VisualForm)

  /** An experiment log entry (db/models/experiment.py). */
  datatype Experiment = Experiment(
    userId: int,
    autostationName: string,
    experimentType: string,
    waitWeeks: int,
    isComplete: bool,
    detail: Detail)

  datatype Db = Db(
    users: set<int>,
    catalog: seq<CatalogItem>,
    inventories: seq<Inventory>,
    orders: seq<Order>,
    experiments: seq<Experiment>)

  datatype Error =
    | UserNotFound(userId: int)
    | ArticleNotFound(article: Article)
    | InventoryNotInitialized
    | InsufficientCredits(available: real, need: real)
    | NotEnoughCartridges(cartridge: Article)
    | NotEnoughShifts(shiftsNeeded: int, shiftsAvailable: int)
    | NotConfirmed
    | InvalidCaptureType(captureType: string)

  /** An action either commits a new state and returns its record, or fails. */
  datatype Outcome<R> = Success(db: Db, record: R) | Failure(reason: Error)

  /** The state after an action: the committed one, or the old one on failure. */
  function Commit<R>(db: Db, o: Outcome<R>): Db
  {
    if o.Success? then o.db else db
  }

  /** The inventory row every action reads (`query(Inventory).first()`). */
  function FirstInventory(db: Db): Option<Inventory>
  {
    if |db.inventories| == 0 then None else Some(db.inventories[0])
  }

  /** Write back the first inventory row; every other row and table is kept. */
  function StoreInventory(db: Db, inv: Inventory): (r: Db)
    requires |db.inventories| > 0
    ensures FirstInventory(r) == Some(inv)
    ensures |r.inventories| == |db.inventories| && r.inventories[1..] == db.inventories[1..]
    ensures r.users == db.users && r.catalog == db.catalog
    ensures r.orders == db.orders && r.experiments == db.experiments
  {
    db.(inventories := [inv] + db.inventories[1..])
  }

  /**
   * Index of the first catalog entry at or after `from` whose key is `key`,
   * the row `filter(item_key == key).first()` yields.
   */
  function FindItem(catalog: seq<CatalogItem>, key: string, from: nat): (r: Option<nat>)
    requires from <= |catalog|
    ensures r.Some? ==> from <= r.value < |catalog| && catalog[r.value].itemKey == key
    ensures r.Some? ==> forall j :: from <= j < r.value ==> catalog[j].itemKey != key
    ensures r.None? <==> forall j :: from <= j < |catalog| ==> catalog[j].itemKey != key
    decreases |catalog| - from
  {
    if from == |catalog| then None
    else if catalog[from].itemKey == key then Some(from)
    else FindItem(catalog, key, from + 1)
  }

  /** The catalog price of an article: that of the first entry keyed by its value. */
  function CatalogPrice(catalog: seq<CatalogItem>, a: Article): (r: Option<real>)
    ensures r.None? <==> forall j :: 0 <= j < |catalog| ==> catalog[j].itemKey != ArticleValue(a)
    ensures r.Some? ==> exists j :: 0 <= j < |catalog| && catalog[j].itemKey == ArticleValue(a)
                                    && catalog[j].chuanCost == r.value
                                    && forall k :: 0 <= k < j ==> catalog[k].itemKey != ArticleValue(a)
  {
    match FindItem(catalog, ArticleValue(a), 0)
    case None => None
    case Some(j) => Some(catalog[j].chuanCost)
  }
}
